=== FILE: README.md ===
# Files-to-Bytes, modelled in Dafny

Files-to-Bytes (`main.cpp`) turns a file into a C header holding its bytes. The
header has an attribution comment, an include guard `FILE_<stem>_H`, an array
`unsigned char <stem>_data[] = {...};` and a constant
`unsigned int <stem>_size = n;`. Each element is written in one of two radixes,
HEX (`0x` and two lowercase digits) or DECIMAL, and a newline may follow every
sixteenth element. The radix and the line-break flag are kept in `settings.ini`
as two `Key=Value` lines. When no file is given, an interactive menu changes
them.

This project models the pure logic of the program and proves its properties:

- `literals.dfy` (modules `Modes`, `Literals`): the `OutputMode` enumeration, the
  printing of one byte in either radix, and a parser that accepts exactly the
  printed forms.
- `bytearray.dfy` (module `ByteArray`): the array body written by the two
  formatting loops of `convertToByteArray`. It comes with an independent
  row-by-row layout and a decoder. `EmitBody` writes the body element by
  element, like the loop does.
- `header.dfy` (module `HeaderFile`): the complete header text for a given
  stem, its decoder, and the size constant.
- `settings.dfy` (module `SettingsFile`):
  - `saveSettings`;
  - the parser of `loadOrCreateSettings`, including the `std::getline`
    splitting of the file text;
  - the defaults written when the file is missing;
  - a "last line wins" reference definition.
- `session.dfy` (module `Session`): one step of the interactive menu, the whole
  menu loop, and what the loop leaves in the settings file.
- `strings.dfy` (modules `Options`, `Strings`): an option type and the string
  helpers (index, join, split, remove, count) used by all of the above.

Bytes are `int`s in `0..255` (`Literals.byte`). Strings are `seq<char>`. The
file system, the console and the stem computation are parameters:
- an input file is its byte sequence;
- the stem is any string;
- the settings file is `Option<string>` (absent or its text);
- the typed lines are a `seq<string>`.

## Model

| member | source | states |
|---|---|---|
| Modes.OutputMode | main.cpp:27 | the two output radixes, HEX and DECIMAL. `Literals.LiteralRoundTrip` and `SettingsFile.ModeNameRoundTrip` range over both |
| Strings.StartsWith | main.cpp:99-102 | the `line.find(key) == 0` test: the key is a prefix of the line. `SettingsFile.ParseLastWins` states which lines set which field through it |
| Literals.HexLiteral | main.cpp:61-63 | a HEX element is exactly four characters: `0x` then two lowercase hex digits whose value, high digit first, is the byte |
| Literals.DecimalLiteral | main.cpp:69-70 | a DECIMAL element is an unpadded numeral of one to three digits, with no leading zero, whose value is the byte |
| Literals.ToDecimal | main.cpp:77 | the unpadded decimal rendering of a count: non-empty, digits only, no leading zero, value equal to the number, one digit exactly below 10 |
| Literals.DecimalOfByte | main.cpp:70 | a byte widened to `int` prints with one to three digits |
| Literals.ParseDecimal | main.cpp:77 | a numeral is accepted exactly when it is canonical (digits, no leading zero), and then prints back to itself |
| Literals.DecimalRoundTrip | main.cpp:77 | parsing the printed decimal form of any natural number returns that number |
| Literals.Literal | main.cpp:60-70 | the text written for one byte: `0x` and two lowercase hex digits (`std::hex`, `setfill('0')`, `setw(2)`), or the unpadded decimal value of the byte widened to `int`. It is non-empty and starts with a digit; `Literals.LiteralRoundTrip` states that it is exactly what `ParseLiteral` accepts for that byte |
| Literals.ParseLiteral | main.cpp:60-74 | the inverse of the element printing, used to read a body back. `Literals.LiteralRoundTrip` states that it returns `b` on a string exactly when that string is the element printed for `b` |
| Literals.LiteralIsPlain | main.cpp:60-74 | no element text contains `,`, a newline or `}` |
| Literals.LiteralRoundTrip | main.cpp:60-74 | in either radix, the element parser returns byte `b` for a string exactly when the string is the element the loop prints for `b` |
| ByteArray.Piece | main.cpp:62-66 | what one pass of the loop writes for element `i`: its text, a `,` unless it is the last element, and a newline when line breaks are on and `i % 16 == 15`. `ByteArray.NewlineAfter` and `ByteArray.PieceWithoutNewlines` state its shape |
| ByteArray.ArrangeFrom | main.cpp:62-66 | the loop's output from element `i` on. `ByteArray.SuffixFrom` states that it is a suffix of the whole output, and `ByteArray.NewlineAfterElement` what follows each element |
| ByteArray.Arrange | main.cpp:62-66 | the whole loop over any element texts. `ByteArray.ArrangeIsLayout` states that it equals the independent row-of-sixteen layout |
| ByteArray.Body | main.cpp:60-74 | the array body for the bytes in the chosen radix and line-break setting. `ByteArray.BodyIsLayout`, `ByteArray.BodyRoundTrip`, `ByteArray.CommaCount` and `ByteArray.NewlineCount` state its contract |
| ByteArray.EmitBody | main.cpp:60-74 | the element-by-element loop produces the row layout of the literals; its output decodes back to the input bytes and holds no `}` |
| ByteArray.ArrangeIsLayout | main.cpp:62-73 | for any element texts, the loop's output equals the reference layout. Without line breaks it is the texts joined by `,`. With them it is rows of sixteen joined by `,` and separated by `,\n`, with a final `\n` when the count is a positive multiple of 16 |
| ByteArray.BodyIsLayout | main.cpp:60-74 | the array body of the bytes is the reference layout of their literals |
| ByteArray.NewlinesRemoved | main.cpp:62-73 | deleting the newlines from the body leaves the literals joined by single commas, whatever the line-break setting |
| ByteArray.CommaCount | main.cpp:64 | the body has exactly one comma per gap between consecutive elements and none after the last (n − 1 commas, 0 when empty) |
| ByteArray.NewlineCount | main.cpp:65 | with line breaks the body holds one newline per completed group of sixteen elements, `n / 16`; without them it holds none |
| ByteArray.NewlineAfterElement | main.cpp:62-66 | element `i`'s literal, then its comma unless it is the last, starts a suffix of the body. A newline follows them exactly when line breaks are on and `i % 16 == 15`, the last element included |
| ByteArray.TwentyElements | main.cpp:62-66 | twenty bytes with line breaks give the first sixteen elements comma-separated, then `,` and a newline, then the last four elements, with no trailing newline |
| ByteArray.EmptyBody | main.cpp:62 | an empty file gives an empty body |
| ByteArray.BodyRoundTrip | main.cpp:60-74 | removing newlines, splitting on commas and parsing each element in the same radix recovers the bytes, in both radixes and both line-break settings |
| ByteArray.NoBraceInBody | main.cpp:60-76 | the body contains no `}`, so the first `}` after the opening brace closes the array |
| HeaderFile.Attribution | main.cpp:51-56 | the six-line attribution comment and the blank line after it. `HeaderFile.HeaderRoundTrip` states that the decoder checks it as part of the opening |
| HeaderFile.Opening | main.cpp:51-58 | the attribution comment, the include guard `FILE_<stem>_H` and `unsigned char <stem>_data[] = {`. `HeaderFile.HeaderRoundTrip` states that the decoder recognises it |
| HeaderFile.Closing | main.cpp:76-78 | `};`, a blank line and the size line. `HeaderFile.SizeConstant` states what the header ends with |
| HeaderFile.SizeLine | main.cpp:77-78 | the size line after its `unsigned int ` prefix: `<stem>_size = `, the byte count in decimal (`std::dec`), `;`, a blank line and `#endif`. `HeaderFile.SizeConstant` states that its numeral reads back as the count |
| HeaderFile.Header | main.cpp:51-78 | the whole header: opening, array body, closing. `HeaderFile.HeaderRoundTrip` states that it decodes to the input bytes, and `HeaderFile.SizeConstant` and `HeaderFile.EmptyInput` its end and its empty case |
| HeaderFile.HeaderRoundTrip | main.cpp:57-78 | decoding the whole header for a stem and radix checks the opening and the closing size line, and returns the original bytes |
| HeaderFile.WriteHeader | main.cpp:51-78 | writing opening, element loop and closing gives the header for the stem, radix and line-break setting. The text starts with the opening and decodes to the input bytes |
| HeaderFile.SizeConstant | main.cpp:76-78 | the header ends with `<stem>_size = ` followed by the decimal byte count, `;`, a blank line and `#endif`, and that numeral reads back as the count |
| HeaderFile.EmptyInput | main.cpp:57-78 | an empty input yields `{` directly followed by `};` and `<stem>_size = 0` |
| SettingsFile.FileText | main.cpp:113-114 | lines written each followed by `\n`. `SettingsFile.ReadFileText` and `SettingsFile.ReadLinesCover` state that `std::getline` reads the lines back and that it inverts `ReadLines` on newline-terminated text |
| SettingsFile.SaveText | main.cpp:113-114 | the text `saveSettings` writes. `SettingsFile.SavedTexts` gives it for each setting, and `SettingsFile.SaveLoadRoundTrip` states that loading it gives back the saved settings |
| SettingsFile.ModeName | main.cpp:113 | the mode is written as `HEX` or `DECIMAL`, and as `HEX` exactly for HEX. `SettingsFile.ModeNameRoundTrip` states that it reads back as the same mode |
| SettingsFile.ModeFromValue | main.cpp:100 | a `Mode=` value gives HEX exactly when it is `HEX`; anything else gives DECIMAL |
| SettingsFile.FlagFromValue | main.cpp:103 | a `LineBreaks=` value turns line breaks on exactly when it is `1` |
| SettingsFile.Serialize | main.cpp:113-114 | saving writes two lines: `Mode=HEX` or `Mode=DECIMAL`, then `LineBreaks=1` or `LineBreaks=0`. `SettingsFile.SaveParseRoundTrip` states which setting gives which |
| SettingsFile.ReadLines | main.cpp:98 | the lines read by `std::getline` contain no newline |
| SettingsFile.ApplyLine | main.cpp:99-104 | a line without the `Mode=` prefix leaves the mode alone, and one without the `LineBreaks=` prefix leaves the flag alone |
| SettingsFile.Parse | main.cpp:98-105 | the `getline` loop applying each line in turn to the two fields. `SettingsFile.ParseLastWins` states that the last line carrying a key decides its field |
| SettingsFile.Load | main.cpp:84-107 | `loadOrCreateSettings` as written, with the fields' prior values as a parameter. `SettingsFile.MissingFile`, `SettingsFile.SaveLoadRoundTrip` and `SettingsFile.MissingKeyUndetermined` state its contract |
| SettingsFile.ParseLastWins | main.cpp:98-105 | after parsing, each field has the value from the last line that starts with its key, or its starting value if no line does |
| SettingsFile.ReadFileText | main.cpp:98 | reading back newline-terminated lines with `std::getline` gives the same lines |
| SettingsFile.ReadLinesCover | main.cpp:98 | written back with a `\n` after each line, the lines `std::getline` reads give the text, with a `\n` added only when the last line was unterminated. A non-empty text without a newline is read as one line |
| SettingsFile.SavedTexts | main.cpp:113-114 | the exact file text for each of the four settings, e.g. `Mode=DECIMAL\n` then `LineBreaks=0\n` |
| SettingsFile.ModeNameRoundTrip | main.cpp:113 | the mode name written on save reads back as the same mode |
| SettingsFile.SaveParseRoundTrip | main.cpp:98-114 | parsing the two saved lines yields the saved settings, whatever the parser starts from (all four combinations) |
| SettingsFile.SaveLoadRoundTrip | main.cpp:96-114 | loading the text `saveSettings` writes gives back the saved settings and creates no file |
| SettingsFile.DefaultText | main.cpp:90 | `Mode=HEX\n` then `LineBreaks=1\n`. `SettingsFile.MissingFile` states that it is what saving the defaults writes and that it loads back to them |
| SettingsFile.MissingFile | main.cpp:88-93 | a missing file yields HEX with line breaks. It creates exactly the text that saving those settings writes, and that text loads back to HEX with line breaks |
| SettingsFile.MissingKeyUndetermined | main.cpp:129-131 | as written, when no line carries `Mode=`, the loaded mode is whatever value the variable held before loading; likewise for `LineBreaks=` and the flag |
| SettingsFile.LineBreaksOnlyFile | main.cpp:98-105 | a file holding only `LineBreaks=1` has no `Mode=` line, which is a concrete input for the finding below |
| SettingsFile.ModeOnlyFile | main.cpp:98-105 | a file holding only `Mode=HEX` has no `LineBreaks=` line, a concrete input for the same finding about the flag |
| SettingsFile.LoadWithDefaults | main.cpp:84-107 | corrected loading: a missing file yields the defaults and creates their saved text; an existing file yields the last-wins values over the defaults and creates nothing |
| SettingsFile.MissingKeyDefaults | main.cpp:98-105 | with corrected loading, a key no line carries falls back to HEX or to line breaks on |
| Session.Step | main.cpp:140-158 | the input is handled as follows. `hex` or `dec` sets only the mode and saves. `line` or `noline` sets only the flag and saves. The empty line exits. Anything else continues with both settings unchanged and no save |
| Session.Run | main.cpp:135-159 | the menu loop applied to the typed lines until the first empty one. `Session.RunLastWins` states where it ends, and `Session.NoSaveNoChange` its no-command case |
| Session.Active | main.cpp:138-151 | the lines the menu acts on are a prefix of the input with no empty line. When input remains after them, the next line is the empty one that exits |
| Session.RunLastWins | main.cpp:135-159 | at exit, the mode is the one set by the last `hex`/`dec` before the first empty line, and the flag by the last `line`/`noline`. A setting with no such command keeps its starting value |
| Session.SavesIffCommand | main.cpp:156-158 | the settings file is rewritten during the session exactly when an accepted command comes before the exit |
| Session.NoSaveNoChange | main.cpp:152-154 | a session without an accepted command ends with the settings it started with |
| Session.InteractiveLoop | main.cpp:135-159 | the menu loop ends with the last-wins settings. The settings file then holds their saved text if any command was accepted, and is otherwise unchanged. Either way it loads back to the final settings |
| Session.InteractiveSession | main.cpp:128-160 | loading (creating the defaults file if absent), then the menu. The session's final settings are what the next start-up loads. Without an accepted command the file stays as found, or as created |

## Left out

- File and directory I/O is not modelled: opening and reading the input, creating `outputs`, the output path, `fs::exists` and the `ofstream` writes. The input bytes, the settings file text and the stem are parameters instead, and failure to open a file is not modelled.
- `fs::path::stem` and `parent_path` are not modelled. The stem is any string, as given; the program does not sanitise it and neither does the model.
- The console is not modelled: `SetConsoleTitle`, `system("cls")`, the banner and usage text, and the "Exiting..." and "Invalid input" messages. They carry no state.
- The batch loop over `argv` (main.cpp:163-167) is not modelled. It only runs the conversion on each file in turn.
- The attribution comment (main.cpp:51-56) is a fixed constant prefix, `HeaderFile.Attribution`.
- Text-mode newline translation (CRLF on Windows) for the header and the settings file is not modelled. Files are modelled as the characters the program writes and reads.
- Session.Run: end of input on `std::cin` is treated as an empty line. `std::getline` then leaves the string empty, so the menu exits.
- SettingsFile.Load: takes the field values before loading as a parameter rather than modelling an uninitialised read. See the finding below.
- Session.InteractiveSession: uses the corrected loading, `SettingsFile.LoadWithDefaults`, for the start-up load, so a settings file missing a key starts from the defaults rather than from undetermined values.
- Session.InteractiveLoop: uses the corrected loading, `SettingsFile.LoadWithDefaults`, to state that the next start-up reads back the final settings.

## Findings

| source | as written | input that shows it | evidently intended | confidence | as-written member | corrected member |
|---|---|---|---|---|---|---|
| main.cpp:129-131 | `mode` and `lineBreaks` are declared without initial values. `loadOrCreateSettings` assigns a field only when some line carries its key, so an existing settings file that lacks a key leaves that field indeterminate | a `settings.ini` containing only `LineBreaks=1` | a missing key falls back to the default used when the file is missing (HEX, line breaks on) | high that the field is left unassigned; medium on the intended fallback; not executed | SettingsFile.MissingKeyUndetermined | SettingsFile.LoadWithDefaults |

=== FILE: bytearray.dfy ===
/**
 * The text between `{` and `}` of the generated array (the formatting loops of
 * `convertToByteArray`). Element `i` of `n` is written as its literal, then a
 * comma when `i < n - 1`, then a newline when line breaks are on and
 * `i % 16 == 15`. The layout does not depend on what the literals are, so it
 * is defined over any sequence of element texts (`Arrange`) and the array body
 * is that layout applied to the rendered bytes (`Body`).
 */
module ByteArray {
  import opened Options
  import opened Strings
  import opened Modes
  import opened Literals

  /** An element text: non-empty, and free of the characters that frame elements. */
  predicate Plain(s: string)
  {
    |s| > 0 && ',' !in s && '\n' !in s && '}' !in s
  }

  predicate AllPlain(elems: seq<string>)
  {
    forall i :: 0 <= i < |elems| ==> Plain(elems[i])
  }

  /** Everything the loop writes for element `i`. */
  function Piece(lineBreaks: bool, elems: seq<string>, i: nat): string
    requires i < |elems|
  {
    elems[i]
    + (if i < |elems| - 1 then "," else "")
    + (if lineBreaks && i % 16 == 15 then "\n" else "")
  }

  /** What the loop writes from element `i` on. */
  function ArrangeFrom(lineBreaks: bool, elems: seq<string>, i: nat): string
    requires i <= |elems|
    decreases |elems| - i
  {
    if i == |elems| then "" else Piece(lineBreaks, elems, i) + ArrangeFrom(lineBreaks, elems, i + 1)
  }

  function Arrange(lineBreaks: bool, elems: seq<string>): string
  {
    ArrangeFrom(lineBreaks, elems, 0)
  }

  /** The bytes rendered one literal each. */
  function ElementLiterals(mode: OutputMode, bs: seq<byte>): (r: seq<string>)
    ensures |r| == |bs|
    ensures forall i :: 0 <= i < |bs| ==> r[i] == Literal(mode, bs[i])
  {
    seq(|bs|, i requires 0 <= i < |bs| => Literal(mode, bs[i]))
  }

  lemma LiteralsArePlain(mode: OutputMode, bs: seq<byte>)
    ensures AllPlain(ElementLiterals(mode, bs))
  {
    forall i | 0 <= i < |bs|
      ensures Plain(Literal(mode, bs[i]))
    {
      LiteralIsPlain(mode, bs[i]);
    }
  }

  /** The array body for the whole byte sequence. */
  function Body(mode: OutputMode, lineBreaks: bool, bs: seq<byte>): string
  {
    Arrange(lineBreaks, ElementLiterals(mode, bs))
  }

  // ---------------------------------------------------------------------------
  // Unfolding one element.

  lemma Unfold(lineBreaks: bool, elems: seq<string>, i: nat)
    requires i < |elems|
    ensures ArrangeFrom(lineBreaks, elems, i)
            == elems[i]
               + (if i < |elems| - 1 then "," else "")
               + (if lineBreaks && i % 16 == 15 then "\n" else "")
               + ArrangeFrom(lineBreaks, elems, i + 1)
  {
  }

  /** An element that is followed by another and does not end a line. */
  lemma UnfoldInner(lineBreaks: bool, elems: seq<string>, j: nat)
    requires j + 1 < |elems| && !(lineBreaks && j % 16 == 15)
    ensures ArrangeFrom(lineBreaks, elems, j) == elems[j] + "," + ArrangeFrom(lineBreaks, elems, j + 1)
  {
    Unfold(lineBreaks, elems, j);
  }

  /** An element that is followed by another and ends a line. */
  lemma UnfoldLineEnd(elems: seq<string>, j: nat)
    requires j + 1 < |elems| && j % 16 == 15
    ensures ArrangeFrom(true, elems, j) == elems[j] + ",\n" + ArrangeFrom(true, elems, j + 1)
  {
    Unfold(true, elems, j);
  }

  /** The last element. */
  lemma UnfoldLast(elems: seq<string>, j: nat)
    requires j + 1 == |elems|
    ensures ArrangeFrom(true, elems, j) == elems[j] + (if j % 16 == 15 then "\n" else "")
  {
    Unfold(true, elems, j);
  }

  // ---------------------------------------------------------------------------
  // Reference layout: rows of sixteen elements.

  /** The elements cut into rows of sixteen; only the last row may be shorter. */
  function Rows(elems: seq<string>): (rows: seq<seq<string>>)
    ensures forall k :: 0 <= k < |rows| ==> 1 <= |rows[k]| <= 16
    ensures forall k :: 0 <= k < |rows| - 1 ==> |rows[k]| == 16
    decreases |elems|
  {
    if |elems| == 0 then []
    else if |elems| <= 16 then [elems]
    else [elems[..16]] + Rows(elems[16..])
  }

  function RowTexts(rows: seq<seq<string>>): (r: seq<string>)
    ensures |r| == |rows|
    ensures forall k :: 0 <= k < |rows| ==> r[k] == Join(",", rows[k])
  {
    seq(|rows|, k requires 0 <= k < |rows| => Join(",", rows[k]))
  }

  /** Without line breaks the elements are comma-separated on one line; with
      them, each row of sixteen is comma-separated, rows are separated by a
      comma and a newline, and a full last row is followed by a newline. */
  function Layout(lineBreaks: bool, elems: seq<string>): string
  {
    if !lineBreaks then Join(",", elems)
    else Join(",\n", RowTexts(Rows(elems))) + (if |elems| > 0 && |elems| % 16 == 0 then "\n" else "")
  }

  lemma {:induction false} FlatFrom(elems: seq<string>, i: nat)
    requires i <= |elems|
    ensures ArrangeFrom(false, elems, i) == Join(",", elems[i..])
    decreases |elems| - i
  {
    if i < |elems| {
      FlatFrom(elems, i + 1);
      assert elems[i..][1..] == elems[i + 1..];
    }
  }

  /** Position within a row of sixteen that starts at a multiple of sixteen. */
  lemma ColumnInRow(start: nat, j: nat)
    requires start % 16 == 0 && start <= j < start + 16
    ensures j % 16 == j - start
  {
  }

  /** The last element of a row `[start, e)`. */
  lemma RowEnd(elems: seq<string>, start: nat, e: nat)
    requires start % 16 == 0 && start < e <= |elems|
    requires e == start + 16 || (e == |elems| && |elems| < start + 16)
    ensures ArrangeFrom(true, elems, e - 1)
            == Join(",", elems[e - 1..e])
               + (if e < |elems| then ",\n" + ArrangeFrom(true, elems, e)
                  else if e == start + 16 then "\n" else "")
  {
    var j := e - 1;
    ColumnInRow(start, j);
    assert elems[j..e] == [elems[j]];
    if e < |elems| {
      UnfoldLineEnd(elems, j);
    } else {
      UnfoldLast(elems, j);
    }
  }

  /** An element of a row other than its last. */
  lemma RowStep(elems: seq<string>, start: nat, e: nat, j: nat)
    requires start % 16 == 0 && start <= j && j + 1 < e <= |elems|
    requires e <= start + 16
    ensures ArrangeFrom(true, elems, j) == elems[j] + "," + ArrangeFrom(true, elems, j + 1)
    ensures Join(",", elems[j..e]) == elems[j] + "," + Join(",", elems[j + 1..e])
  {
    ColumnInRow(start, j);
    UnfoldInner(true, elems, j);
    assert elems[j..e][1..] == elems[j + 1..e];
  }

  /** Within one row `[start, e)`: from element `j` to the row's end. */
  lemma {:induction false} RowFrom(elems: seq<string>, start: nat, e: nat, j: nat)
    requires start % 16 == 0 && start <= j < e <= |elems|
    requires e == start + 16 || (e == |elems| && |elems| < start + 16)
    ensures ArrangeFrom(true, elems, j)
            == Join(",", elems[j..e])
               + (if e < |elems| then ",\n" + ArrangeFrom(true, elems, e)
                  else if e == start + 16 then "\n" else "")
    decreases e - j
  {
    if j + 1 == e {
      RowEnd(elems, start, e);
    } else {
      RowFrom(elems, start, e, j + 1);
      RowStep(elems, start, e, j);
    }
  }

  /** The row texts from a row start on, first row split off. */
  lemma RowsSplit(elems: seq<string>, i: nat)
    requires i + 16 < |elems|
    ensures Join(",\n", RowTexts(Rows(elems[i..])))
            == Join(",", elems[i..i + 16]) + ",\n" + Join(",\n", RowTexts(Rows(elems[i + 16..])))
  {
    var rest := elems[i..];
    assert rest[..16] == elems[i..i + 16];
    assert rest[16..] == elems[i + 16..];
    var texts := RowTexts(Rows(rest));
    assert texts[1..] == RowTexts(Rows(elems[i + 16..]));
  }

  /** From the start of the last row, full or not, to the end. */
  lemma LastRow(elems: seq<string>, i: nat)
    requires i % 16 == 0 && i < |elems| <= i + 16
    ensures ArrangeFrom(true, elems, i)
            == Join(",\n", RowTexts(Rows(elems[i..]))) + (if |elems| % 16 == 0 then "\n" else "")
  {
    RowFrom(elems, i, |elems|, i);
    assert elems[i..] == elems[i..|elems|];
    assert (|elems| % 16 == 0) <==> (|elems| == i + 16);
  }

  /** From the start of a row to the end. */
  lemma {:induction false} RowsFrom(elems: seq<string>, i: nat)
    requires i % 16 == 0 && i <= |elems|
    ensures ArrangeFrom(true, elems, i)
            == Join(",\n", RowTexts(Rows(elems[i..])))
               + (if |elems| > i && |elems| % 16 == 0 then "\n" else "")
    decreases |elems| - i
  {
    if i + 16 < |elems| {
      RowFrom(elems, i, i + 16, i);
      RowsFrom(elems, i + 16);
      RowsSplit(elems, i);
    } else if i < |elems| {
      LastRow(elems, i);
    } else {
      assert elems[i..] == [];
    }
  }

  /** The loop's output is the row-by-row layout. */
  lemma ArrangeIsLayout(lineBreaks: bool, elems: seq<string>)
    ensures Arrange(lineBreaks, elems) == Layout(lineBreaks, elems)
  {
    assert elems[0..] == elems;
    if lineBreaks {
      RowsFrom(elems, 0);
    } else {
      FlatFrom(elems, 0);
    }
  }

  // ---------------------------------------------------------------------------
  // Separators and newlines.

  /** Deleting newlines from one element's output leaves what it writes
      without line breaks. */
  lemma PieceWithoutNewlines(lineBreaks: bool, elems: seq<string>, i: nat)
    requires i < |elems| && Plain(elems[i])
    ensures Remove(Piece(lineBreaks, elems, i), '\n') == Piece(false, elems, i)
  {
    var comma: string := if i < |elems| - 1 then "," else "";
    var nl: string := if lineBreaks && i % 16 == 15 then "\n" else "";
    assert Piece(lineBreaks, elems, i) == elems[i] + comma + nl;
    RemoveConcat(elems[i] + comma, nl, '\n');
    RemoveConcat(elems[i], comma, '\n');
    assert Remove(nl, '\n') == "";
  }

  lemma {:induction false} NewlinesOnlyBetween(lineBreaks: bool, elems: seq<string>, i: nat)
    requires AllPlain(elems)
    requires i <= |elems|
    ensures Remove(ArrangeFrom(lineBreaks, elems, i), '\n') == ArrangeFrom(false, elems, i)
    decreases |elems| - i
  {
    if i < |elems| {
      NewlinesOnlyBetween(lineBreaks, elems, i + 1);
      PieceWithoutNewlines(lineBreaks, elems, i);
      RemoveConcat(Piece(lineBreaks, elems, i), ArrangeFrom(lineBreaks, elems, i + 1), '\n');
    }
  }

  lemma {:induction false} CommasKept(s: string)
    ensures Count(Remove(s, '\n'), ',') == Count(s, ',')
    decreases |s|
  {
    if |s| > 0 {
      CommasKept(s[1..]);
      if s[0] != '\n' {
        assert Remove(s, '\n') == [s[0]] + Remove(s[1..], '\n');
        CountConcat([s[0]], Remove(s[1..], '\n'), ',');
      }
    }
  }

  lemma {:induction false} NewlineCountFrom(lineBreaks: bool, elems: seq<string>, i: nat)
    requires AllPlain(elems)
    requires i <= |elems|
    ensures Count(ArrangeFrom(lineBreaks, elems, i), '\n')
            == if lineBreaks then |elems| / 16 - i / 16 else 0
    decreases |elems| - i
  {
    if i < |elems| {
      NewlineCountFrom(lineBreaks, elems, i + 1);
      var comma: string := if i < |elems| - 1 then "," else "";
      var nl: string := if lineBreaks && i % 16 == 15 then "\n" else "";
      Unfold(lineBreaks, elems, i);
      CountConcat(elems[i] + comma + nl, ArrangeFrom(lineBreaks, elems, i + 1), '\n');
      CountConcat(elems[i] + comma, nl, '\n');
      CountConcat(elems[i], comma, '\n');
      CountAbsent(elems[i], '\n');
      CountAbsent(comma, '\n');
      assert Count(nl, '\n') == if nl == "" then 0 else 1;
      assert (i + 1) / 16 - i / 16 == if i % 16 == 15 then 1 else 0;
    }
  }

  lemma {:induction false} SuffixFrom(lineBreaks: bool, elems: seq<string>, i: nat)
    requires i <= |elems|
    ensures var all := Arrange(lineBreaks, elems);
            var from := ArrangeFrom(lineBreaks, elems, i);
            |from| <= |all| && all[|all| - |from|..] == from
    decreases i
  {
    if i > 0 {
      SuffixFrom(lineBreaks, elems, i - 1);
      Unfold(lineBreaks, elems, i - 1);
    }
  }

  lemma {:induction false} NoBraceFrom(lineBreaks: bool, elems: seq<string>, i: nat)
    requires AllPlain(elems)
    requires i <= |elems|
    ensures '}' !in ArrangeFrom(lineBreaks, elems, i)
    decreases |elems| - i
  {
    if i < |elems| {
      NoBraceFrom(lineBreaks, elems, i + 1);
      Unfold(lineBreaks, elems, i);
    }
  }

  // ---------------------------------------------------------------------------
  // Properties of the array body.

  /** The loop's body is the row-by-row layout of the byte literals. */
  lemma BodyIsLayout(mode: OutputMode, lineBreaks: bool, bs: seq<byte>)
    ensures Body(mode, lineBreaks, bs) == Layout(lineBreaks, ElementLiterals(mode, bs))
  {
    ArrangeIsLayout(lineBreaks, ElementLiterals(mode, bs));
  }

  /** Deleting the newlines leaves the single-line, comma-separated literals. */
  lemma NewlinesRemoved(mode: OutputMode, lineBreaks: bool, bs: seq<byte>)
    ensures Remove(Body(mode, lineBreaks, bs), '\n') == Join(",", ElementLiterals(mode, bs))
  {
    var elems := ElementLiterals(mode, bs);
    LiteralsArePlain(mode, bs);
    NewlinesOnlyBetween(lineBreaks, elems, 0);
    ArrangeIsLayout(false, elems);
  }

  /** Exactly one comma between consecutive elements and none after the last. */
  lemma CommaCount(mode: OutputMode, lineBreaks: bool, bs: seq<byte>)
    ensures Count(Body(mode, lineBreaks, bs), ',') == if |bs| == 0 then 0 else |bs| - 1
  {
    NewlinesRemoved(mode, lineBreaks, bs);
    CommasKept(Body(mode, lineBreaks, bs));
    LiteralsArePlain(mode, bs);
    CountJoin(ElementLiterals(mode, bs), ',');
  }

  /** With line breaks there is one newline per completed row of sixteen; without, none. */
  lemma NewlineCount(mode: OutputMode, lineBreaks: bool, bs: seq<byte>)
    ensures Count(Body(mode, lineBreaks, bs), '\n') == if lineBreaks then |bs| / 16 else 0
    ensures !lineBreaks ==> '\n' !in Body(mode, lineBreaks, bs)
  {
    LiteralsArePlain(mode, bs);
    NewlineCountFrom(lineBreaks, ElementLiterals(mode, bs), 0);
    NewlinesOnlyBetween(lineBreaks, ElementLiterals(mode, bs), 0);
  }

  /** Right after element `i` and its comma (if any) comes a newline exactly
      when line breaks are on and `i % 16 == 15`. */
  lemma {:induction false} NewlineAfter(lineBreaks: bool, elems: seq<string>, i: nat)
    requires AllPlain(elems)
    requires i < |elems|
    ensures var from := ArrangeFrom(lineBreaks, elems, i);
            var k := |elems[i]| + (if i + 1 < |elems| then 1 else 0);
            k <= |from| && from[..k] == elems[i] + (if i + 1 < |elems| then "," else "")
            && ((k < |from| && from[k] == '\n') <==> (lineBreaks && i % 16 == 15))
  {
    var comma: string := if i < |elems| - 1 then "," else "";
    var nl: string := if lineBreaks && i % 16 == 15 then "\n" else "";
    var tail := ArrangeFrom(lineBreaks, elems, i + 1);
    var from := ArrangeFrom(lineBreaks, elems, i);
    Unfold(lineBreaks, elems, i);
    assert from == (elems[i] + comma) + (nl + tail);
    if i + 1 < |elems| {
      Unfold(lineBreaks, elems, i + 1);
      assert Plain(elems[i + 1]);
      assert tail[0] == elems[i + 1][0];
    }
  }

  /** For any element texts: element `i`, with its comma, starts a suffix of
      the arrangement, and a newline follows exactly on a sixteenth element. */
  lemma ElementInArrangement(lineBreaks: bool, elems: seq<string>, i: nat)
    requires AllPlain(elems)
    requires i < |elems|
    ensures var all := Arrange(lineBreaks, elems);
            var from := ArrangeFrom(lineBreaks, elems, i);
            var k := |elems[i]| + (if i + 1 < |elems| then 1 else 0);
            && |from| <= |all| && all[|all| - |from|..] == from
            && k <= |from| && from[..k] == elems[i] + (if i + 1 < |elems| then "," else "")
            && ((k < |from| && from[k] == '\n') <==> (lineBreaks && i % 16 == 15))
  {
    SuffixFrom(lineBreaks, elems, i);
    NewlineAfter(lineBreaks, elems, i);
  }

  /** `ElementInArrangement` for the literals of `bs`. */
  lemma LiteralInBody(mode: OutputMode, lineBreaks: bool, bs: seq<byte>, i: nat)
    requires i < |bs|
    ensures var elems := ElementLiterals(mode, bs);
            var all := Arrange(lineBreaks, elems);
            var from := ArrangeFrom(lineBreaks, elems, i);
            var k := |elems[i]| + (if i + 1 < |elems| then 1 else 0);
            && |from| <= |all| && all[|all| - |from|..] == from
            && k <= |from| && from[..k] == elems[i] + (if i + 1 < |elems| then "," else "")
            && ((k < |from| && from[k] == '\n') <==> (lineBreaks && i % 16 == 15))
  {
    LiteralsArePlain(mode, bs);
    ElementInArrangement(lineBreaks, ElementLiterals(mode, bs), i);
  }

  /** Element `i`'s text starts a suffix of the body; right after its literal
      and its comma (if any) comes a newline exactly when line breaks are on
      and `i % 16 == 15`, the last element included. */
  lemma NewlineAfterElement(mode: OutputMode, lineBreaks: bool, bs: seq<byte>, i: nat)
    requires i < |bs|
    ensures var elems := ElementLiterals(mode, bs);
            var body := Body(mode, lineBreaks, bs);
            var from := ArrangeFrom(lineBreaks, elems, i);
            var k := |elems[i]| + (if i + 1 < |bs| then 1 else 0);
            && elems[i] == Literal(mode, bs[i])
            && |from| <= |body| && body[|body| - |from|..] == from
            && k <= |from| && from[..k] == elems[i] + (if i + 1 < |bs| then "," else "")
            && ((k < |from| && from[k] == '\n') <==> (lineBreaks && i % 16 == 15))
  {
    var elems := ElementLiterals(mode, bs);
    LiteralInBody(mode, lineBreaks, bs, i);
    assert Body(mode, lineBreaks, bs) == Arrange(lineBreaks, elems);
    assert |elems| == |bs| && elems[i] == Literal(mode, bs[i]);
  }

  /** Twenty bytes with line breaks: the first sixteen elements, a comma and
      a newline, then the last four, with no newline at the end. */
  lemma TwentyElements(mode: OutputMode, bs: seq<byte>)
    requires |bs| == 20
    ensures var elems := ElementLiterals(mode, bs);
            Body(mode, true, bs) == Join(",", elems[..16]) + ",\n" + Join(",", elems[16..])
  {
    var elems := ElementLiterals(mode, bs);
    ArrangeIsLayout(true, elems);
    var rows := Rows(elems);
    assert Rows(elems[16..]) == [elems[16..]];
    assert rows == [elems[..16]] + Rows(elems[16..]);
    var texts := RowTexts(rows);
    assert Join(",\n", texts[1..]) == texts[1];
  }

  /** An empty file gives an empty body. */
  lemma EmptyBody(mode: OutputMode, lineBreaks: bool)
    ensures Body(mode, lineBreaks, []) == ""
  {
  }

  // ---------------------------------------------------------------------------
  // Decoding.

  function ParseAll(mode: OutputMode, parts: seq<string>): Option<seq<byte>>
    decreases |parts|
  {
    if |parts| == 0 then Some([])
    else
      match ParseLiteral(mode, parts[0])
      case None => None
      case Some(b) =>
        match ParseAll(mode, parts[1..])
        case None => None
        case Some(rest) => Some([b] + rest)
  }

  /** Reads a body back: drop newlines, split on commas, parse each element. */
  function DecodeBody(mode: OutputMode, body: string): Option<seq<byte>>
  {
    var flat := Remove(body, '\n');
    if flat == "" then Some([]) else ParseAll(mode, Split(flat, ','))
  }

  lemma ParseAllCons(mode: OutputMode, parts: seq<string>, b: byte, rest: seq<byte>)
    requires |parts| > 0 && ParseLiteral(mode, parts[0]) == Some(b)
    requires ParseAll(mode, parts[1..]) == Some(rest)
    ensures ParseAll(mode, parts) == Some([b] + rest)
  {
  }

  lemma {:induction false} ParseAllLiterals(mode: OutputMode, bs: seq<byte>)
    ensures ParseAll(mode, ElementLiterals(mode, bs)) == Some(bs)
    decreases |bs|
  {
    if |bs| > 0 {
      var lits := ElementLiterals(mode, bs);
      LiteralRoundTrip(mode, lits[0], bs[0]);
      assert lits[1..] == ElementLiterals(mode, bs[1..]);
      ParseAllLiterals(mode, bs[1..]);
      ParseAllCons(mode, lits, bs[0], bs[1..]);
      assert [bs[0]] + bs[1..] == bs;
    }
  }

  /** Decoding the body recovers the bytes, in either mode and with or without line breaks. */
  lemma BodyRoundTrip(mode: OutputMode, lineBreaks: bool, bs: seq<byte>)
    ensures DecodeBody(mode, Body(mode, lineBreaks, bs)) == Some(bs)
  {
    NewlinesRemoved(mode, lineBreaks, bs);
    var lits := ElementLiterals(mode, bs);
    if |bs| == 0 {
      assert Join(",", lits) == "";
    } else {
      LiteralsArePlain(mode, bs);
      SplitJoin(lits, ',');
      assert Join(",", lits) != "" by {
        if |bs| > 1 {
          assert Join(",", lits) == lits[0] + "," + Join(",", lits[1..]);
        }
      }
      ParseAllLiterals(mode, bs);
    }
  }

  /** The body contains no closing brace, so the array ends at the first `}`. */
  lemma NoBraceInBody(mode: OutputMode, lineBreaks: bool, bs: seq<byte>)
    ensures '}' !in Body(mode, lineBreaks, bs)
  {
    LiteralsArePlain(mode, bs);
    NoBraceFrom(lineBreaks, ElementLiterals(mode, bs), 0);
  }

  // ---------------------------------------------------------------------------
  // The loop itself.

  lemma BodyFacts(mode: OutputMode, lineBreaks: bool, bs: seq<byte>)
    ensures Body(mode, lineBreaks, bs) == Layout(lineBreaks, ElementLiterals(mode, bs))
    ensures DecodeBody(mode, Body(mode, lineBreaks, bs)) == Some(bs)
    ensures '}' !in Body(mode, lineBreaks, bs)
  {
    BodyIsLayout(mode, lineBreaks, bs);
    BodyRoundTrip(mode, lineBreaks, bs);
    NoBraceInBody(mode, lineBreaks, bs);
  }

  lemma Append(a: string, b: string, c: string, d: string, e: string)
    ensures a + (b + c + d + e) == a + b + c + d + e
  {
  }

  /** Writes the body element by element as the loop in `convertToByteArray` does; the result
      is the row layout of the literals, decodes back to the input and holds
      no closing brace. */
  method EmitBody(mode: OutputMode, lineBreaks: bool, bs: seq<byte>) returns (out: string)
    ensures out == Layout(lineBreaks, ElementLiterals(mode, bs))
    ensures DecodeBody(mode, out) == Some(bs)
    ensures '}' !in out
  {
    ghost var elems := ElementLiterals(mode, bs);
    out := "";
    var i := 0;
    while i < |bs|
      invariant i <= |bs|
      invariant out + ArrangeFrom(lineBreaks, elems, i) == Body(mode, lineBreaks, bs)
    {
      Unfold(lineBreaks, elems, i);
      var comma := if i < |bs| - 1 then "," else "";
      var newline := if lineBreaks && i % 16 == 15 then "\n" else "";
      Append(out, Literal(mode, bs[i]), comma, newline, ArrangeFrom(lineBreaks, elems, i + 1));
      out := out + Literal(mode, bs[i]) + comma + newline;
      i := i + 1;
    }
    BodyFacts(mode, lineBreaks, bs);
  }
}

=== FILE: header.dfy ===
/**
 * The complete generated header file for one input (the output half of
 * `convertToByteArray`): a fixed attribution comment, an include guard named
 * after the input's stem, the byte array, and its element count.
 * The stem is taken as given: the converter does not sanitise it.
 */
module HeaderFile {
  import opened Options
  import opened Strings
  import opened Modes
  import opened Literals
  import opened ByteArray

  /** The attribution comment written at the top of every header. */
  const Attribution: string :=
    "/*\n"
    + " * Created by luynar software named file-to-bytes\n"
    + " * You can download it from https://github.com/luynrs\n"
    + " * files-to-bytes licensed under Apache License 2.0\n"
    + " * https://www.apache.org/licenses/LICENSE-2.0\n"
    + " */\n\n"

  /** Everything up to and including the array's opening brace. */
  function Opening(stem: string): string
  {
    Attribution
    + "#ifndef FILE_" + stem + "_H\n#define FILE_" + stem + "_H\n\n"
    + "unsigned char " + stem + "_data[] = {"
  }

  /** Everything from the array's closing brace on, given the element count. */
  function Closing(stem: string, count: nat): string
  {
    "};\n\nunsigned int " + SizeLine(stem, count)
  }

  /** The size constant's definition through the end of the file. */
  function SizeLine(stem: string, count: nat): string
  {
    stem + "_size = " + ToDecimal(count) + ";\n\n#endif"
  }

  /** The header text written for `bytes` under `stem`. */
  function Header(stem: string, mode: OutputMode, lineBreaks: bool, bytes: seq<byte>): string
  {
    Opening(stem) + Body(mode, lineBreaks, bytes) + Closing(stem, |bytes|)
  }

  /** Reads a header back: the opening for `stem`, a body up to the first `}`,
      and a closing whose size constant matches the number of elements read. */
  function DecodeHeader(stem: string, mode: OutputMode, text: string): Option<seq<byte>>
  {
    var open := Opening(stem);
    if !StartsWith(text, open) then None
    else
      var rest := text[|open|..];
      match IndexOf(rest, '}')
      case None => None
      case Some(k) =>
        match DecodeBody(mode, rest[..k])
        case None => None
        case Some(bytes) => if rest[k..] == Closing(stem, |bytes|) then Some(bytes) else None
  }

  /** Around a body free of `}`, followed by text that starts with `}`, the
      decoder's steps isolate exactly that body and that tail. */
  lemma Framed(open: string, body: string, close: string)
    requires '}' !in body && |close| > 0 && close[0] == '}'
    ensures var text := open + body + close;
            var rest := body + close;
            && StartsWith(text, open) && text[|open|..] == rest
            && IndexOf(rest, '}') == Some(|body|)
            && rest[..|body|] == body && rest[|body|..] == close
  {
    var rest := body + close;
    assert rest[..|body|] == body;
    IndexOfAt(rest, '}', |body|);
    assert (open + body + close)[..|open|] == open;
  }

  /** Decoding a generated header gives back the bytes, for every stem, mode and line-break setting. */
  lemma HeaderRoundTrip(stem: string, mode: OutputMode, lineBreaks: bool, bytes: seq<byte>)
    ensures DecodeHeader(stem, mode, Header(stem, mode, lineBreaks, bytes)) == Some(bytes)
  {
    NoBraceInBody(mode, lineBreaks, bytes);
    BodyRoundTrip(mode, lineBreaks, bytes);
    Framed(Opening(stem), Body(mode, lineBreaks, bytes), Closing(stem, |bytes|));
  }

  lemma EndsWith(a: string, b: string, tail: string)
    ensures var text := a + (b + tail); |tail| <= |text| && text[|text| - |tail|..] == tail
  {
    assert a + (b + tail) == (a + b) + tail;
  }

  /** The file ends with the size constant, the decimal element count, which
      reads back as that count. */
  lemma SizeConstant(stem: string, mode: OutputMode, lineBreaks: bool, bytes: seq<byte>)
    ensures var text := Header(stem, mode, lineBreaks, bytes);
            var tail := stem + "_size = " + ToDecimal(|bytes|) + ";\n\n#endif";
            |tail| <= |text| && text[|text| - |tail|..] == tail
    ensures ParseDecimal(ToDecimal(|bytes|)) == Some(|bytes|)
  {
    EndsWith(Opening(stem) + Body(mode, lineBreaks, bytes), "};\n\nunsigned int ", SizeLine(stem, |bytes|));
    DecimalRoundTrip(|bytes|);
  }

  /** Writes the header as `convertToByteArray` does: the opening, the array
      body element by element, then the closing with the element count. */
  method WriteHeader(stem: string, mode: OutputMode, lineBreaks: bool, bytes: seq<byte>)
    returns (text: string)
    ensures text == Header(stem, mode, lineBreaks, bytes)
    ensures DecodeHeader(stem, mode, text) == Some(bytes)
    ensures StartsWith(text, Opening(stem))
  {
    var body := EmitBody(mode, lineBreaks, bytes);
    BodyIsLayout(mode, lineBreaks, bytes);
    text := Opening(stem) + body + Closing(stem, |bytes|);
    HeaderRoundTrip(stem, mode, lineBreaks, bytes);
    assert text[..|Opening(stem)|] == Opening(stem);
  }

  /** An empty input still yields a complete header: empty array, size 0. */
  lemma EmptyInput(stem: string, mode: OutputMode, lineBreaks: bool)
    ensures Header(stem, mode, lineBreaks, [])
            == Opening(stem) + "};\n\nunsigned int " + stem + "_size = 0;\n\n#endif"
  {
    assert ToDecimal(0) == "0";
  }
}

=== FILE: literals.dfy ===
/** The converter's two output radixes (`enum class OutputMode` in main.cpp). */
module Modes {

  datatype OutputMode = Hex | Decimal
}

/**
 * Rendering of one byte as an array element, and the matching parser.
 * HEX mode prints `0x` and two zero-padded lowercase hex digits (stream in
 * `std::hex` with fill `'0'` and width 2); DECIMAL mode prints the plain
 * unsigned value of the byte widened to `int`.
 */
module Literals {
  import opened Options
  import opened Modes

  type byte = x: int | 0 <= x < 256

  predicate IsDigit(c: char)
  {
    '0' <= c <= '9'
  }

  predicate IsLowerHex(c: char)
  {
    IsDigit(c) || 'a' <= c <= 'f'
  }

  function DigitValue(c: char): (d: nat)
    requires IsDigit(c)
    ensures d < 10
  {
    c as int - '0' as int
  }

  function HexValue(c: char): (d: nat)
    requires IsLowerHex(c)
    ensures d < 16
    ensures IsDigit(c) <==> d < 10
  {
    if IsDigit(c) then DigitValue(c) else c as int - 'a' as int + 10
  }

  function DigitChar(d: nat): (c: char)
    requires d < 10
    ensures IsDigit(c) && DigitValue(c) == d
  {
    ('0' as int + d) as char
  }

  function HexChar(d: nat): (c: char)
    requires d < 16
    ensures IsLowerHex(c) && HexValue(c) == d
  {
    if d < 10 then DigitChar(d) else ('a' as int + d - 10) as char
  }

  /** A lowercase hex digit is the only one of its value. */
  lemma HexCharOfValue(c: char)
    requires IsLowerHex(c)
    ensures HexChar(HexValue(c)) == c
  {
  }

  predicate AllDigits(s: string)
  {
    forall i :: 0 <= i < |s| ==> IsDigit(s[i])
  }

  /** Value of a string of decimal digits, most significant first. */
  function DigitsValue(s: string): nat
    requires AllDigits(s)
    decreases |s|
  {
    if |s| == 0 then 0
    else DigitsValue(s[..|s| - 1]) * 10 + DigitValue(s[|s| - 1])
  }

  /** Decimal rendering of `n` with no padding (`operator<<` on an integer). */
  function ToDecimal(n: nat): (r: string)
    ensures |r| >= 1 && AllDigits(r)
    ensures r[0] != '0' || |r| == 1
    ensures DigitsValue(r) == n
    ensures n < 10 <==> |r| == 1
    decreases n
  {
    if n < 10 then [DigitChar(n)]
    else
      var r := ToDecimal(n / 10) + [DigitChar(n % 10)];
      assert r[..|r| - 1] == ToDecimal(n / 10);
      r
  }

  /** A byte never needs more than three decimal digits. */
  lemma DecimalOfByte(b: byte)
    ensures 1 <= |ToDecimal(b)| <= 3
  {
    if b >= 10 {
      assert |ToDecimal(b)| == |ToDecimal(b / 10)| + 1;
      if b / 10 >= 10 {
        assert |ToDecimal(b / 10)| == |ToDecimal(b / 100)| + 1;
      }
    }
  }

  /** A digit string with no leading zero reads back to itself. */
  predicate Canonical(s: string)
  {
    |s| >= 1 && AllDigits(s) && (s[0] != '0' || |s| == 1)
  }

  lemma {:induction false} LeadingDigitBound(s: string)
    requires |s| >= 1 && AllDigits(s)
    ensures DigitsValue(s) >= DigitValue(s[0])
    decreases |s|
  {
    if |s| > 1 {
      var init := s[..|s| - 1];
      assert init[0] == s[0];
      LeadingDigitBound(init);
    }
  }

  /** Printing the value of a canonical digit string gives the string back. */
  lemma {:induction false} DecimalOfCanonical(s: string)
    requires Canonical(s)
    ensures ToDecimal(DigitsValue(s)) == s
    decreases |s|
  {
    if |s| > 1 {
      var init := s[..|s| - 1];
      assert init[0] == s[0];
      LeadingDigitBound(init);
      var v := DigitsValue(s);
      assert v / 10 == DigitsValue(init);
      assert v % 10 == DigitValue(s[|s| - 1]);
      DecimalOfCanonical(init);
      assert s == init + [s[|s| - 1]];
    }
  }

  /** Parses an unpadded decimal numeral. */
  function ParseDecimal(s: string): (r: Option<nat>)
    ensures r.Some? <==> Canonical(s)
    ensures r.Some? ==> ToDecimal(r.value) == s
  {
    if Canonical(s) then
      DecimalOfCanonical(s);
      Some(DigitsValue(s))
    else None
  }

  /** ParseDecimal inverts Decimal on every natural number. */
  lemma DecimalRoundTrip(n: nat)
    ensures ParseDecimal(ToDecimal(n)) == Some(n)
  {
  }

  function HexLiteral(b: byte): (r: string)
    ensures |r| == 4 && r[0] == '0' && r[1] == 'x'
    ensures IsLowerHex(r[2]) && IsLowerHex(r[3])
    ensures HexValue(r[2]) * 16 + HexValue(r[3]) == b
  {
    "0x" + [HexChar(b / 16), HexChar(b % 16)]
  }

  function DecimalLiteral(b: byte): (r: string)
    ensures Canonical(r) && |r| <= 3
    ensures DigitsValue(r) == b
  {
    DecimalOfByte(b);
    ToDecimal(b)
  }

  /** One array element as the stream writes it in the given mode. */
  function Literal(mode: OutputMode, b: byte): (r: string)
    ensures |r| >= 1
    ensures IsDigit(r[0])
  {
    match mode
    case Hex => HexLiteral(b)
    case Decimal => DecimalLiteral(b)
  }

  /** A literal holds none of the characters that frame it in the array text. */
  lemma LiteralIsPlain(mode: OutputMode, b: byte)
    ensures ',' !in Literal(mode, b) && '\n' !in Literal(mode, b) && '}' !in Literal(mode, b)
  {
    var r := Literal(mode, b);
    assert forall i :: 0 <= i < |r| ==> IsLowerHex(r[i]) || r[i] == 'x';
  }

  /** Reads one array element back: HEX needs `0x` and exactly two lowercase
      hex digits, DECIMAL an unpadded numeral below 256. */
  function ParseLiteral(mode: OutputMode, s: string): Option<byte>
  {
    match mode
    case Hex =>
      if |s| == 4 && s[0] == '0' && s[1] == 'x' && IsLowerHex(s[2]) && IsLowerHex(s[3])
      then Some(HexValue(s[2]) * 16 + HexValue(s[3]))
      else None
    case Decimal =>
      match ParseDecimal(s)
      case Some(n) => if n < 256 then Some(n) else None
      case None => None
  }

  /** The parser accepts exactly the strings the printer produces, and reads
      each back as the byte it was printed from. */
  lemma LiteralRoundTrip(mode: OutputMode, s: string, b: byte)
    ensures ParseLiteral(mode, s) == Some(b) <==> s == Literal(mode, b)
  {
    if ParseLiteral(mode, s) == Some(b) {
      match mode
      case Hex =>
        HexCharOfValue(s[2]);
        HexCharOfValue(s[3]);
        assert b / 16 == HexValue(s[2]) && b % 16 == HexValue(s[3]);
        assert s == "0x" + [s[2], s[3]];
      case Decimal =>
    }
    if s == Literal(mode, b) {
      match mode
      case Hex =>
      case Decimal =>
        DecimalRoundTrip(b);
    }
  }
}

=== FILE: session.dfy ===
/**
 * The interactive menu `main` runs when no file is given: each line typed is
 * `hex`/`dec` (set the radix), `line`/`noline` (set line breaks), empty
 * (exit) or anything else (rejected). Every accepted command rewrites the
 * settings file at once, even when the value does not change.
 */
module Session {
  import opened Options
  import opened Modes
  import opened SettingsFile

  /** The four inputs the menu accepts. */
  predicate IsCommand(input: string)
  {
    input == "hex" || input == "dec" || input == "line" || input == "noline"
  }

  /** What one pass of the loop does: stop, or carry on with new settings,
      saving them when `save` is set. */
  datatype Outcome = Exit | Continue(settings: Settings, save: bool)

  /** One pass of the menu loop on one line of input. */
  function Step(s: Settings, input: string): (o: Outcome)
    ensures o.Exit? <==> input == ""
    ensures o.Continue? ==> (o.save <==> IsCommand(input))
    ensures o.Continue? && !o.save ==> o.settings == s
    ensures input == "hex" ==> o == Continue(s.(mode := Hex), true)
    ensures input == "dec" ==> o == Continue(s.(mode := Decimal), true)
    ensures input == "line" ==> o == Continue(s.(lineBreaks := true), true)
    ensures input == "noline" ==> o == Continue(s.(lineBreaks := false), true)
  {
    if input == "hex" || input == "dec" then
      Continue(s.(mode := if input == "hex" then Hex else Decimal), true)
    else if input == "line" || input == "noline" then
      Continue(s.(lineBreaks := input == "line"), true)
    else if input == "" then
      Exit
    else
      Continue(s, false)
  }

  /** The settings the menu shows when it exits, given the lines typed. Running
      out of input counts as an empty line: `std::getline` then leaves the
      string empty. */
  function Run(s: Settings, inputs: seq<string>): Settings
    decreases |inputs|
  {
    if |inputs| == 0 then s
    else
      match Step(s, inputs[0])
      case Exit => s
      case Continue(t, _) => Run(t, inputs[1..])
  }

  /** Whether some accepted command comes before the exit, i.e. the settings
      file is rewritten during the session. */
  predicate Saves(inputs: seq<string>)
    decreases |inputs|
  {
    |inputs| > 0 && inputs[0] != "" && (IsCommand(inputs[0]) || Saves(inputs[1..]))
  }

  // ---------------------------------------------------------------------------
  // Reference: the lines read before the first empty one, and for each setting
  // the last command about it.

  /** The lines the menu acts on: everything before the first empty line. */
  function Active(inputs: seq<string>): (r: seq<string>)
    ensures r <= inputs
    ensures forall i :: 0 <= i < |r| ==> r[i] != ""
    ensures |r| < |inputs| ==> inputs[|r|] == ""
    decreases |inputs|
  {
    if |inputs| == 0 || inputs[0] == "" then [] else [inputs[0]] + Active(inputs[1..])
  }

  /** The last line equal to `a` or `b`. */
  function LastOf(lines: seq<string>, a: string, b: string): (r: Option<string>)
    ensures r.Some? ==> r.value == a || r.value == b
    ensures r.None? <==> forall i :: 0 <= i < |lines| ==> lines[i] != a && lines[i] != b
    decreases |lines|
  {
    if |lines| == 0 then None
    else if lines[|lines| - 1] == a || lines[|lines| - 1] == b then Some(lines[|lines| - 1])
    else
      var r := LastOf(lines[..|lines| - 1], a, b);
      assert forall i :: 0 <= i < |lines| - 1 ==> lines[..|lines| - 1][i] == lines[i];
      r
  }

  /** Each setting as the last command about it says, or unchanged. */
  function Chosen(s: Settings, lines: seq<string>): Settings
  {
    Settings(
      match LastOf(lines, "hex", "dec")
      case None => s.mode
      case Some(c) => if c == "hex" then Hex else Decimal,
      match LastOf(lines, "line", "noline")
      case None => s.lineBreaks
      case Some(c) => c == "line")
  }

  /** On the lines before the first empty one the menu does the same as on
      the whole input. */
  lemma {:induction false} RunActive(s: Settings, inputs: seq<string>)
    ensures Run(s, inputs) == Run(s, Active(inputs))
    decreases |inputs|
  {
    if |inputs| > 0 && inputs[0] != "" {
      var t := Step(s, inputs[0]).settings;
      RunActive(t, inputs[1..]);
      assert Active(inputs)[1..] == Active(inputs[1..]);
    }
  }

  /** Lines without an exit can be acted on in two parts. */
  lemma {:induction false} RunConcat(s: Settings, a: seq<string>, b: seq<string>)
    requires forall i :: 0 <= i < |a| ==> a[i] != ""
    ensures Run(s, a + b) == Run(Run(s, a), b)
    decreases |a|
  {
    if |a| == 0 {
      assert a + b == b;
    } else {
      assert (a + b)[1..] == a[1..] + b;
      RunConcat(Step(s, a[0]).settings, a[1..], b);
    }
  }

  /** On lines without an exit, the last command about each setting decides it. */
  lemma {:induction false} CommandsLastWin(s: Settings, lines: seq<string>)
    requires forall i :: 0 <= i < |lines| ==> lines[i] != ""
    ensures Run(s, lines) == Chosen(s, lines)
    decreases |lines|
  {
    if |lines| > 0 {
      var init := lines[..|lines| - 1];
      var last := lines[|lines| - 1];
      assert lines == init + [last];
      RunConcat(s, init, [last]);
      CommandsLastWin(s, init);
      RunOne(Run(s, init), last);
      ChosenSnoc(s, init, last);
    }
  }

  lemma RunOne(s: Settings, line: string)
    requires line != ""
    ensures Run(s, [line]) == Step(s, line).settings
  {
    var lines: seq<string> := [line];
    assert lines[1..] == [];
  }

  /** One more line after `init` updates the last-command reference as a
      step of the menu does. */
  lemma ChosenSnoc(s: Settings, init: seq<string>, last: string)
    requires last != ""
    ensures Chosen(s, init + [last]) == Step(Chosen(s, init), last).settings
  {
    var lines := init + [last];
    assert lines[..|lines| - 1] == init;
  }

  /** The menu ends with each setting as the last command about it before the
      first empty line says; settings with no such command keep their values. */
  lemma RunLastWins(s: Settings, inputs: seq<string>)
    ensures Run(s, inputs) == Chosen(s, Active(inputs))
  {
    RunActive(s, inputs);
    CommandsLastWin(s, Active(inputs));
  }

  /** The file is rewritten exactly when an accepted command precedes the exit. */
  lemma {:induction false} SavesIffCommand(inputs: seq<string>)
    ensures Saves(inputs) <==> exists i :: 0 <= i < |Active(inputs)| && IsCommand(Active(inputs)[i])
    decreases |inputs|
  {
    if |inputs| > 0 && inputs[0] != "" {
      var rest := Active(inputs[1..]);
      SavesIffCommand(inputs[1..]);
      assert Active(inputs) == [inputs[0]] + rest;
      assert Active(inputs)[0] == inputs[0];
      if Saves(inputs[1..]) {
        var j :| 0 <= j < |rest| && IsCommand(rest[j]);
        assert Active(inputs)[j + 1] == rest[j];
      }
      if exists i :: 0 <= i < |Active(inputs)| && IsCommand(Active(inputs)[i]) {
        var i :| 0 <= i < |Active(inputs)| && IsCommand(Active(inputs)[i]);
        if i > 0 {
          assert Active(inputs)[i] == rest[i - 1];
        }
      }
    }
  }

  /** Without an accepted command the session leaves the settings alone. */
  lemma {:induction false} NoSaveNoChange(s: Settings, inputs: seq<string>)
    requires !Saves(inputs)
    ensures Run(s, inputs) == s
    decreases |inputs|
  {
    if |inputs| > 0 && inputs[0] != "" {
      NoSaveNoChange(s, inputs[1..]);
    }
  }

  /** The settings file text once the session is over, given its text now. */
  function Persisted(disk: string, s: Settings, inputs: seq<string>): string
  {
    if Saves(inputs) then SaveText(Run(s, inputs)) else disk
  }

  /** One accepted or rejected line moves the session on without changing
      where it ends or what it leaves on disk. */
  lemma StepKeepsOutcome(s: Settings, disk: string, inputs: seq<string>)
    requires |inputs| > 0 && inputs[0] != ""
    ensures var o := Step(s, inputs[0]);
            Run(s, inputs) == Run(o.settings, inputs[1..])
            && Persisted(disk, s, inputs)
               == Persisted(if o.save then SaveText(o.settings) else disk, o.settings, inputs[1..])
  {
    var o := Step(s, inputs[0]);
    if o.save && !Saves(inputs[1..]) {
      NoSaveNoChange(o.settings, inputs[1..]);
    }
  }

  /** The menu loop of `main`, starting from the settings `s` loaded from the
      settings file text `file`. Returns the settings at exit and the settings
      file text at exit; the next start-up loads exactly the settings the
      session ended with. */
  method InteractiveLoop(s: Settings, file: string, inputs: seq<string>)
    returns (final: Settings, disk: string)
    requires LoadWithDefaults(Some(file)).settings == s
    ensures final == Run(s, inputs)
    ensures disk == if Saves(inputs) then SaveText(final) else file
    ensures LoadWithDefaults(Some(disk)).settings == final
  {
    final := s;
    disk := file;
    var k := 0;
    while true
      invariant 0 <= k <= |inputs|
      invariant Run(s, inputs) == Run(final, inputs[k..])
      invariant Persisted(file, s, inputs) == Persisted(disk, final, inputs[k..])
      invariant LoadWithDefaults(Some(disk)).settings == final
      decreases |inputs| - k
    {
      var input := if k < |inputs| then inputs[k] else "";
      var o := Step(final, input);
      if o.Exit? {
        break;
      }
      StepKeepsOutcome(final, disk, inputs[k..]);
      assert inputs[k..][1..] == inputs[k + 1..];
      if o.save {
        SaveLoadRoundTrip(Defaults, o.settings);
        disk := SaveText(o.settings);
      }
      final := o.settings;
      k := k + 1;
    }
  }

  /** `main` without file arguments: load the settings (creating the file
      when it is missing), then run the menu. The settings the session ends
      with are those the next start-up loads. */
  method InteractiveSession(file: Option<string>, inputs: seq<string>)
    returns (final: Settings, disk: string)
    ensures final == Run(LoadWithDefaults(file).settings, inputs)
    ensures file.None? && !Saves(inputs) ==> disk == DefaultText
    ensures file.Some? && !Saves(inputs) ==> disk == file.value
    ensures LoadWithDefaults(Some(disk)).settings == final
  {
    var loaded := LoadWithDefaults(file);
    var text := if file.Some? then file.value else DefaultText;
    if file.None? {
      MissingFile(Defaults, Defaults);
    }
    final, disk := InteractiveLoop(loaded.settings, text, inputs);
  }
}

=== FILE: settings.dfy ===
/**
 * The settings file `settings.ini` (`loadOrCreateSettings` and `saveSettings`):
 * two `Key=Value` lines written on save, read back by a line-by-line parser in
 * which a line starting with `Mode=` or `LineBreaks=` sets that field and a
 * later line overrides an earlier one.
 */
module SettingsFile {
  import opened Options
  import opened Strings
  import opened Modes

  datatype Settings = Settings(mode: OutputMode, lineBreaks: bool)

  /** What a missing settings file yields. */
  const Defaults: Settings := Settings(Hex, true)

  const ModeKey: string := "Mode="
  const LineBreaksKey: string := "LineBreaks="

  /** The mode's name as `saveSettings` writes it. */
  function ModeName(mode: OutputMode): (name: string)
    ensures name == "HEX" || name == "DECIMAL"
    ensures name == "HEX" <==> mode == Hex
  {
    match mode
    case Hex => "HEX"
    case Decimal => "DECIMAL"
  }

  /** Any value other than exactly `HEX` means DECIMAL. */
  function ModeFromValue(value: string): (mode: OutputMode)
    ensures mode == Hex <==> value == "HEX"
  {
    if value == "HEX" then Hex else Decimal
  }

  /** Only exactly `1` means line breaks on. */
  function FlagFromValue(value: string): (on: bool)
    ensures on <==> value == "1"
  {
    value == "1"
  }

  // ---------------------------------------------------------------------------
  // Writing.

  /** The two lines `saveSettings` writes. */
  function Serialize(s: Settings): (lines: seq<string>)
    ensures |lines| == 2
    ensures StartsWith(lines[0], ModeKey) && StartsWith(lines[1], LineBreaksKey)
    ensures lines[0] == "Mode=HEX" || lines[0] == "Mode=DECIMAL"
    ensures lines[1] == "LineBreaks=1" || lines[1] == "LineBreaks=0"
  {
    [ModeKey + ModeName(s.mode), LineBreaksKey + (if s.lineBreaks then "1" else "0")]
  }

  /** Lines as a text stream writes them: each followed by a newline. */
  function FileText(lines: seq<string>): string
    decreases |lines|
  {
    if |lines| == 0 then "" else lines[0] + "\n" + FileText(lines[1..])
  }

  function SaveText(s: Settings): string
  {
    FileText(Serialize(s))
  }

  /** The text written when no settings file exists. */
  const DefaultText: string := "Mode=HEX\n" + "LineBreaks=1\n"

  // ---------------------------------------------------------------------------
  // Reading.

  /** The lines `std::getline` yields: text up to each newline, plus a final
      unterminated line if the text does not end in a newline. */
  function ReadLines(text: string): (lines: seq<string>)
    ensures forall i :: 0 <= i < |lines| ==> '\n' !in lines[i]
    decreases |text|
  {
    if |text| == 0 then []
    else
      match IndexOf(text, '\n')
      case None => [text]
      case Some(k) => [text[..k]] + ReadLines(text[k + 1..])
  }

  /** The effect of one line on the settings read so far. */
  function ApplyLine(s: Settings, line: string): (r: Settings)
    ensures !StartsWith(line, ModeKey) ==> r.mode == s.mode
    ensures !StartsWith(line, LineBreaksKey) ==> r.lineBreaks == s.lineBreaks
  {
    if StartsWith(line, ModeKey) then s.(mode := ModeFromValue(line[|ModeKey|..]))
    else if StartsWith(line, LineBreaksKey) then s.(lineBreaks := FlagFromValue(line[|LineBreaksKey|..]))
    else s
  }

  /** The lines applied in order, starting from `start`. */
  function Parse(start: Settings, lines: seq<string>): Settings
    decreases |lines|
  {
    if |lines| == 0 then start else Parse(ApplyLine(start, lines[0]), lines[1..])
  }

  datatype LoadResult = LoadResult(settings: Settings, created: Option<string>)

  /** `loadOrCreateSettings`: a missing file (`None`) yields the defaults and
      the text of the file created for them; an existing one is parsed from
      the values the caller starts with, and nothing is written. */
  function Load(file: Option<string>, start: Settings): LoadResult
  {
    match file
    case None => LoadResult(Defaults, Some(DefaultText))
    case Some(text) => LoadResult(Parse(start, ReadLines(text)), None)
  }

  // ---------------------------------------------------------------------------
  // Reference: the last line with a key decides that key.

  /** The value after `key` on the last line that starts with it. */
  function LastValue(key: string, lines: seq<string>): Option<string>
    decreases |lines|
  {
    if |lines| == 0 then None
    else if StartsWith(lines[|lines| - 1], key) then Some(lines[|lines| - 1][|key|..])
    else LastValue(key, lines[..|lines| - 1])
  }

  function Decided(start: Settings, lines: seq<string>): Settings
  {
    Settings(
      match LastValue(ModeKey, lines)
      case None => start.mode
      case Some(v) => ModeFromValue(v),
      match LastValue(LineBreaksKey, lines)
      case None => start.lineBreaks
      case Some(v) => FlagFromValue(v))
  }

  /** Parsing the concatenation of two files continues from the first. */
  lemma {:induction false} ParseConcat(start: Settings, a: seq<string>, b: seq<string>)
    ensures Parse(start, a + b) == Parse(Parse(start, a), b)
    decreases |a|
  {
    if |a| == 0 {
      assert a + b == b;
    } else {
      assert (a + b)[1..] == a[1..] + b;
      ParseConcat(ApplyLine(start, a[0]), a[1..], b);
    }
  }

  /** Each field ends up as the last line carrying its key says, or keeps its
      starting value when no line carries it; other lines change nothing. */
  lemma {:induction false} ParseLastWins(start: Settings, lines: seq<string>)
    ensures Parse(start, lines) == Decided(start, lines)
    decreases |lines|
  {
    if |lines| > 0 {
      var init := lines[..|lines| - 1];
      var last := lines[|lines| - 1];
      assert lines == init + [last];
      ParseConcat(start, init, [last]);
      ParseLastWins(start, init);
      assert Parse(start, lines) == ApplyLine(Parse(start, init), last);
      if StartsWith(last, LineBreaksKey) {
        assert last[0] == 'L';
        assert !StartsWith(last, ModeKey);
      }
    }
  }

  // ---------------------------------------------------------------------------
  // Round trips.

  lemma {:induction false} ReadFileText(lines: seq<string>)
    requires forall i :: 0 <= i < |lines| ==> '\n' !in lines[i]
    ensures ReadLines(FileText(lines)) == lines
    decreases |lines|
  {
    if |lines| > 0 {
      var text := FileText(lines);
      var k := |lines[0]|;
      assert text == lines[0] + ("\n" + FileText(lines[1..]));
      assert text[..k] == lines[0];
      IndexOfAt(text, '\n', k);
      assert text[k + 1..] == FileText(lines[1..]);
      ReadFileText(lines[1..]);
    }
  }

  lemma FileTextCons(line: string, lines: seq<string>)
    ensures FileText([line] + lines) == line + "\n" + FileText(lines)
  {
    assert ([line] + lines)[1..] == lines;
  }

  /** A text ends in a newline exactly when the part after its first newline
      is empty or ends in one. */
  lemma CutAtNewline(text: string, k: nat)
    requires k < |text| && text[k] == '\n'
    ensures text == text[..k] + "\n" + text[k + 1..]
    ensures var rest := text[k + 1..];
            (text[|text| - 1] == '\n') <==> (|rest| == 0 || rest[|rest| - 1] == '\n')
  {
  }

  /** Writing back the lines `std::getline` reads restores the text, except
      that an unterminated last line is kept and gains its newline. */
  lemma {:induction false} ReadLinesCover(text: string)
    ensures FileText(ReadLines(text))
            == if |text| == 0 || text[|text| - 1] == '\n' then text else text + "\n"
    ensures |text| > 0 && '\n' !in text ==> ReadLines(text) == [text]
    decreases |text|
  {
    if |text| > 0 {
      match IndexOf(text, '\n')
      case None =>
        FileTextCons(text, []);
      case Some(k) =>
        var rest := text[k + 1..];
        ReadLinesCover(rest);
        FileTextCons(text[..k], ReadLines(rest));
        CutAtNewline(text, k);
    }
  }

  lemma ModeNameRoundTrip(mode: OutputMode)
    ensures ModeFromValue(ModeName(mode)) == mode
  {
  }

  /** Parsing what `saveSettings` writes recovers the saved settings, whatever
      the parser starts from. */
  lemma SaveParseRoundTrip(start: Settings, s: Settings)
    ensures Parse(start, Serialize(s)) == s
  {
    var lines := Serialize(s);
    var first := ApplyLine(start, lines[0]);
    assert lines[0][|ModeKey|..] == ModeName(s.mode);
    assert first == start.(mode := s.mode);
    assert !StartsWith(lines[1], ModeKey) by {
      assert lines[1][0] == 'L';
    }
    assert lines[1][|LineBreaksKey|..] == if s.lineBreaks then "1" else "0";
    assert ApplyLine(first, lines[1]) == s;
    assert lines[1..] == [lines[1]];
    assert Parse(first, [lines[1]]) == Parse(ApplyLine(first, lines[1]), []);
  }

  /** Loading the file `saveSettings` writes gives back the saved settings. */
  lemma SaveLoadRoundTrip(start: Settings, s: Settings)
    ensures Load(Some(SaveText(s)), start).settings == s
    ensures Load(Some(SaveText(s)), start).created == None
  {
    var lines := Serialize(s);
    assert '\n' !in lines[0] && '\n' !in lines[1];
    ReadFileText(lines);
    SaveParseRoundTrip(start, s);
  }

  /** The exact text of `settings.ini` after saving each of the four settings. */
  lemma SavedTexts()
    ensures SaveText(Settings(Hex, true)) == "Mode=HEX\n" + "LineBreaks=1\n"
    ensures SaveText(Settings(Hex, false)) == "Mode=HEX\n" + "LineBreaks=0\n"
    ensures SaveText(Settings(Decimal, true)) == "Mode=DECIMAL\n" + "LineBreaks=1\n"
    ensures SaveText(Settings(Decimal, false)) == "Mode=DECIMAL\n" + "LineBreaks=0\n"
  {
    SavedText(Settings(Hex, true));
    SavedText(Settings(Hex, false));
    SavedText(Settings(Decimal, true));
    SavedText(Settings(Decimal, false));
  }

  /** The saved text is the two serialised lines, each with its newline. */
  lemma SavedText(s: Settings)
    ensures SaveText(s) == (Serialize(s)[0] + "\n") + (Serialize(s)[1] + "\n")
  {
    var lines := Serialize(s);
    FileTextCons(lines[1], []);
    assert [lines[1]] + [] == lines[1..];
    FileTextCons(lines[0], lines[1..]);
    assert [lines[0]] + lines[1..] == lines;
  }

  /** A missing file yields HEX with line breaks, and the file created for it
      is what saving those settings writes, so it loads back to the same values. */
  lemma MissingFile(start: Settings, later: Settings)
    ensures Load(None, start).settings == Settings(Hex, true)
    ensures Load(None, start).created == Some(SaveText(Defaults))
    ensures Load(Some(DefaultText), later).settings == Settings(Hex, true)
  {
    assert SaveText(Defaults) == DefaultText;
    SaveLoadRoundTrip(later, Defaults);
  }

  // ---------------------------------------------------------------------------
  // Start-up values. `main` declares the two settings without initialising
  // them, so a field whose key no line carries keeps an indeterminate value.

  /** As written: a field whose key no line carries keeps whatever value
      the variable held before loading. */
  lemma MissingKeyUndetermined(text: string, before: Settings)
    ensures LastValue(ModeKey, ReadLines(text)).None?
            ==> Load(Some(text), before).settings.mode == before.mode
    ensures LastValue(LineBreaksKey, ReadLines(text)).None?
            ==> Load(Some(text), before).settings.lineBreaks == before.lineBreaks
  {
    ParseLastWins(before, ReadLines(text));
  }

  /** A file holding only `LineBreaks=1` carries no `Mode=` line. */
  lemma LineBreaksOnlyFile()
    ensures LastValue(ModeKey, ReadLines(FileText([LineBreaksKey + "1"]))).None?
  {
    var line: string := LineBreaksKey + "1";
    var lines: seq<string> := [line];
    ReadFileText(lines);
    assert !StartsWith(line, ModeKey) by {
      assert line[0] == 'L';
    }
    assert lines[..0] == [];
  }

  /** A file holding only `Mode=HEX` carries no `LineBreaks=` line. */
  lemma ModeOnlyFile()
    ensures LastValue(LineBreaksKey, ReadLines(FileText([ModeKey + "HEX"]))).None?
  {
    var line: string := ModeKey + "HEX";
    var lines: seq<string> := [line];
    ReadFileText(lines);
    assert !StartsWith(line, LineBreaksKey) by {
      assert line[0] == 'M';
    }
    assert lines[..0] == [];
  }

  /** Corrected: loading starts from the defaults, so a key that no line
      carries falls back to its default and the outcome depends on the file
      alone. */
  function LoadWithDefaults(file: Option<string>): (r: LoadResult)
    ensures file.None? ==> r.settings == Defaults && r.created == Some(SaveText(Defaults))
    ensures file.Some? ==> r.settings == Decided(Defaults, ReadLines(file.value)) && r.created == None
  {
    match file
    case None =>
      assert SaveText(Defaults) == DefaultText;
      Load(None, Defaults)
    case Some(text) =>
      ParseLastWins(Defaults, ReadLines(text));
      Load(file, Defaults)
  }

  /** With the corrected start-up a missing key means its default. */
  lemma MissingKeyDefaults(text: string)
    ensures LastValue(ModeKey, ReadLines(text)).None? ==> LoadWithDefaults(Some(text)).settings.mode == Hex
    ensures LastValue(LineBreaksKey, ReadLines(text)).None? ==> LoadWithDefaults(Some(text)).settings.lineBreaks
  {
  }
}

=== FILE: strings.dfy ===
/** An optional value, used for every parser's "no parse" outcome. */
module Options {

  datatype Option<+T> = None | Some(value: T)
}

/** Character-sequence helpers shared by the converter and the settings codec. */
module Strings {
  import opened Options

  /** `prefix` is a prefix of `s` (`line.find(prefix) == 0` in `loadOrCreateSettings`). */
  predicate StartsWith(s: string, prefix: string)
  {
    |prefix| <= |s| && s[..|prefix|] == prefix
  }

  /** Position of the first occurrence of `c` in `s`. */
  function IndexOf(s: string, c: char): (r: Option<nat>)
    ensures r.None? <==> c !in s
    ensures r.Some? ==> r.value < |s| && s[r.value] == c && c !in s[..r.value]
  {
    if |s| == 0 then None
    else if s[0] == c then Some(0)
    else
      match IndexOf(s[1..], c)
      case None => None
      case Some(k) =>
        assert s[..k + 1] == [s[0]] + s[1..][..k];
        Some(k + 1)
  }

  /** The first occurrence is the one with no earlier occurrence. */
  lemma IndexOfAt(s: string, c: char, k: nat)
    requires k < |s| && s[k] == c && c !in s[..k]
    ensures IndexOf(s, c) == Some(k)
  {
  }

  /** The parts joined with `sep` between consecutive parts, and nothing after the last. */
  function Join(sep: string, parts: seq<string>): string
    decreases |parts|
  {
    if |parts| == 0 then ""
    else if |parts| == 1 then parts[0]
    else parts[0] + sep + Join(sep, parts[1..])
  }

  /** `s` cut at every occurrence of `c`; an empty `s` is one empty part. */
  function Split(s: string, c: char): (parts: seq<string>)
    ensures |parts| >= 1
    ensures forall i :: 0 <= i < |parts| ==> c !in parts[i]
    ensures Join([c], parts) == s
    decreases |s|
  {
    match IndexOf(s, c)
    case None => [s]
    case Some(k) =>
      var rest := Split(s[k + 1..], c);
      assert s == s[..k] + [c] + s[k + 1..];
      [s[..k]] + rest
  }

  /** `s` with every occurrence of `c` deleted. */
  function Remove(s: string, c: char): (r: string)
    ensures c !in r
    ensures |r| <= |s|
    ensures c !in s ==> r == s
  {
    if |s| == 0 then ""
    else if s[0] == c then Remove(s[1..], c)
    else [s[0]] + Remove(s[1..], c)
  }

  /** Number of occurrences of `c` in `s`. */
  function Count(s: string, c: char): nat
  {
    if |s| == 0 then 0
    else (if s[0] == c then 1 else 0) + Count(s[1..], c)
  }

  lemma {:induction false} RemoveConcat(a: string, b: string, c: char)
    ensures Remove(a + b, c) == Remove(a, c) + Remove(b, c)
    decreases |a|
  {
    if |a| == 0 {
      assert a + b == b;
    } else {
      assert (a + b)[1..] == a[1..] + b;
      RemoveConcat(a[1..], b, c);
    }
  }

  lemma {:induction false} CountConcat(a: string, b: string, c: char)
    ensures Count(a + b, c) == Count(a, c) + Count(b, c)
    decreases |a|
  {
    if |a| == 0 {
      assert a + b == b;
    } else {
      assert (a + b)[1..] == a[1..] + b;
      CountConcat(a[1..], b, c);
    }
  }

  lemma {:induction false} CountAbsent(s: string, c: char)
    requires c !in s
    ensures Count(s, c) == 0
    decreases |s|
  {
    if |s| > 0 {
      assert c !in s[1..];
      CountAbsent(s[1..], c);
    }
  }

  /** Splitting undoes joining, provided no part contains the separator. */
  lemma {:induction false} SplitJoin(parts: seq<string>, c: char)
    requires |parts| >= 1
    requires forall i :: 0 <= i < |parts| ==> c !in parts[i]
    ensures Split(Join([c], parts), c) == parts
    decreases |parts|
  {
    if |parts| == 1 {
      assert Join([c], parts) == parts[0];
    } else {
      var s := Join([c], parts);
      var tail := Join([c], parts[1..]);
      assert s == parts[0] + [c] + tail;
      var k := |parts[0]|;
      assert s[..k] == parts[0];
      assert s[k] == c;
      assert IndexOf(s, c) == Some(k);
      assert s[k + 1..] == tail;
      SplitJoin(parts[1..], c);
      assert Split(s, c) == [parts[0]] + parts[1..];
    }
  }

  /** Joining with a separator free of `c` adds one `c`-free separator per gap. */
  lemma {:induction false} CountJoin(parts: seq<string>, c: char)
    requires forall i :: 0 <= i < |parts| ==> c !in parts[i]
    ensures Count(Join([c], parts), c) == if |parts| == 0 then 0 else |parts| - 1
    decreases |parts|
  {
    if |parts| == 1 {
      CountAbsent(parts[0], c);
    } else if |parts| > 1 {
      CountJoin(parts[1..], c);
      CountConcat(parts[0] + [c], Join([c], parts[1..]), c);
      CountConcat(parts[0], [c], c);
      CountAbsent(parts[0], c);
      assert Count([c], c) == 1;
    }
  }
}
